=== FILE: README.md ===
# rookie-rss: a Dafny model of the daily-hot-list tool

The repository is a single plugin tool, `RookieRssTool`. It reads a
`platform` and an optional `result_num`, and builds a GET request to a
configured hot-list aggregator. The URL is `urljoin(daily_hot_url, "/" +
platform.strip('/'))` followed by `?limit={result_num}`. Because the endpoint
is an absolute path, `urljoin` keeps only the scheme and host of
`daily_hot_url` and replaces its path. The tool then reshapes the JSON reply
into a list of ranked article records inside a success envelope. When an
exception is raised, it catches and logs it and emits nothing.

The model covers the pure logic of that tool:

- `Py` (`py.dfy`): the Python values the tool handles (`None`, `bool`, `int`,
  `str`, `list`, `dict`) and the exceptions it can raise. It also models the
  built-ins the tool calls: `dict.get`, `len`, `isinstance`, `int()`,
  `str.strip` and `str.lower`.
- `Url` (`url.dfy`): the endpoint `"/" + platform.strip('/')`, the query
  dictionary, and the filter that drops its `None` entries.
- `Articles` (`articles.dfy`): `_format_articles`. It turns the envelope's
  `data` items into records with a 1-based `rank`, renamed fields, and the
  envelope's metadata.
- `Tool` (`tool.dfy`): `_get_required_param`, the preparation part of
  `_invoke`, the success envelope (`code`, `articles`, `pagination`), and one
  whole invocation. The HTTP reply is a parameter of the invocation.
- `Wrappers` (`wrappers.dfy`): `Option` and `Result`.

A Python exception is a `Failure(PyError)`. The tool's four `except` clauses
are the function `Tool.Caught`. Since every clause only logs, a failure is an
invocation whose `Messages` are empty.

Where the code departs from the intended design, the model follows the code:

- `result_num` is not checked for positivity. `0` and negative counts go into
  `limit` unchanged.
- An empty platform string is accepted, and so is one made only of slashes.
  Both give the endpoint `/`.
- A missing `platform` raises KeyError. The clause that catches it logs
  "Missing required credential", the same message as for a missing
  `daily_hot_url`.
- `int(None)` and `int()` of a list or dictionary raise TypeError. That is
  the "unexpected" clause, not the invalid-parameter one. A `result_num`
  present as `None` is therefore not given the default 10.
- `code` and `total` fall back to 200 and 0 only when the key is absent. A
  key present with `null` stays `null`.
- `data` given as `""` or `{}` yields no articles and `returned == 0`, because
  iterating an empty string or dictionary yields nothing.
- `result_type` is read and then overwritten with `"json"`. The `rss=true`
  query parameter can therefore never be produced. The model keeps that
  behaviour. `Url.RssBranchWhenNotPinned` shows what the branch would do
  without the pin.

## Model

| member | source | states |
|---|---|---|
| `Py.Len` | tools/rookie_rss.py:53 | `len(v)` is the number of characters of a string, of items of a list, of keys of a dictionary, and raises TypeError for anything else |
| `Py.AsciiLower` | tools/rookie_rss.py:21 | `lower()` keeps the length, turns each ASCII capital into its small letter, leaves every other character unchanged, and leaves no ASCII capital |
| `Py.AsciiLowerIdempotent` | tools/rookie_rss.py:21 | lowering an already lowered string changes nothing |
| `Py.AsciiLowerMatches` | tools/rookie_rss.py:21 | a string lowers to a given lower-case string exactly when they have the same length and agree at every position up to ASCII case |
| `Py.Strip` | tools/rookie_rss.py:19 | `strip(chars)` returns a slice of its input with only characters from `chars` cut on either side, and the slice neither starts nor ends with one of them |
| `Py.StripUnique` | tools/rookie_rss.py:19 | `strip('/')` removes exactly the leading and trailing run of slashes: for any split into slashes + middle + slashes whose middle neither starts nor ends with a slash, stripping gives that middle |
| `Py.StripIdempotent` | tools/rookie_rss.py:19 | stripping an already stripped platform changes nothing |
| `Py.ToInt` | tools/rookie_rss.py:16 | `int(v)`: integers pass through, booleans give 0/1, unparsable strings raise ValueError, and `None`, lists and dicts raise TypeError and nothing else |
| `Py.IntOfShownInt` | tools/rookie_rss.py:16 | under the `int()` of `Py.ToInt`, which has no digit limit, the decimal literal of any integer reads back as that integer, also with surrounding whitespace (on interpreters with the 4300-digit limit this holds only up to that length) |
| `Py.IntOfLiteral` | tools/rookie_rss.py:16 | `int()` of a literal with an optional `+` or `-`, any number of leading zeros and surrounding whitespace is the signed value of its digits, for example `int(" +007\n") == 7` and `int("-0012") == -12` (on interpreters with the 4300-digit limit, only up to that length) |
| `Url.Endpoint` | tools/rookie_rss.py:19 | the endpoint starts with one `/`, and the segment after it is a contiguous slice of the platform, with only slashes cut around it, that neither starts nor ends with `/` |
| `Url.EndpointSegment` | tools/rookie_rss.py:19 | slashes + segment + slashes gives the endpoint `/segment`, the same as the bare segment, and re-stripping the segment changes nothing |
| `Url.DropNone` | tools/rookie_rss.py:26 | a key survives the filter exactly when its value is present, and keeps that value |
| `Url.QueryParams` | tools/rookie_rss.py:20-26 | after filtering, `limit` is always present with the requested count, `rss` is present (as `"true"`) exactly for the `rss` format, and no other key exists |
| `Url.PinnedQueryIsLimitOnly` | tools/rookie_rss.py:15-26 | with the format pinned to `json` the query is exactly `{limit: n}` |
| `Url.RssBranchWhenNotPinned` | tools/rookie_rss.py:21-26 | the `rss` branch is live for `rss` in any letter case (`RSS`, `Rss`, ...), which then gives the query `{rss: "true", limit: n}`, so only the pin on line 15 makes it dead |
| `Articles.FormatItem` | tools/rookie_rss.py:82-102 | one record: the given rank and metadata; `id`, `title`, `author`, `hot_score`, `links.pc`, `links.mobile` are the item's `id`, `title`, `author`, `hot`, `url`, `mobileUrl`, or null when the key is missing |
| `Articles.FormatItems` | tools/rookie_rss.py:81-102 | the loop succeeds exactly when every item is a dictionary (AttributeError otherwise), with one record per item, the k-th item giving the record of rank `first + k` |
| `Articles.FormatArticles` | tools/rookie_rss.py:78-103 | success exactly for a dictionary envelope whose `data` is absent, a list of dictionaries, or empty; as many records as items; none when `data` is absent; AttributeError or TypeError otherwise |
| `Articles.ArticleFields` | tools/rookie_rss.py:84-101 | record k has rank k+1; `id`, `title`, `author`, `hot_score`, `links.pc`, `links.mobile` are the item's `id`, `title`, `author`, `hot`, `url`, `mobileUrl` or null when missing; metadata comes from the envelope's `name`, `type`, `updateTime` |
| `Articles.RanksAreOneToN` | tools/rookie_rss.py:81-84 | the ranks are exactly 1..n in order, with no gaps |
| `Articles.MetadataShared` | tools/rookie_rss.py:97-101 | every record carries the same metadata, taken from the envelope |
| `Articles.FormatItemsAppend` | tools/rookie_rss.py:81-102 | formatting a concatenation is formatting the parts, the second ranked after the first, so output order is input order |
| `Articles.OtherEnvelopeKeysIgnored` | tools/rookie_rss.py:78-103 | envelope keys other than `data`, `name`, `type`, `updateTime` do not affect the records |
| `Tool.GetRequiredParam` | tools/rookie_rss.py:66-73 | KeyError exactly when the value is missing or `None`; ValueError exactly when it is present with the wrong type; otherwise the value itself |
| `Tool.RequiredParamIsLocal` | tools/rookie_rss.py:66-73 | the outcome depends only on the entry for the requested key |
| `Tool.PrepareRequest` | tools/rookie_rss.py:12-26 | a missing credential raises KeyError first; then a failed platform check raises its KeyError or ValueError; then a failed `int()` of `result_num` raises its ValueError or TypeError; otherwise it succeeds and the request carries the base URL, the endpoint of the platform, and a query of `limit` alone, 10 when `result_num` is absent |
| `Tool.PreparedRequestShape` | tools/rookie_rss.py:12-26 | a prepared request has the configured base URL, the endpoint `/` + stripped platform, no `rss` parameter, and `limit = 10` when `result_num` is absent |
| `Tool.RaiseForStatus` | tools/rookie_rss.py:40 | a status from 400 to 599 raises RequestException; any other status passes |
| `Tool.BuildEnvelope` | tools/rookie_rss.py:47-55 | success exactly when the body can be formatted; status `success`, `code` from the body or 200 when absent, `total` from the body or 0 when absent, `returned` equal to the number of articles |
| `Tool.Respond` | tools/rookie_rss.py:35-55 | a URL `requests` rejects and a body that is not JSON raise ValueError; transport faults and 4xx/5xx statuses raise RequestException; any other reply gives exactly `BuildEnvelope` of the decoded body; success exactly for a non-error status with a JSON body that can be formatted |
| `Tool.Invoke` | tools/rookie_rss.py:9-64 | a request is passed to `requests.get` exactly when preparation succeeds, and it is the prepared request; the outcome is then the response to the reply, and otherwise the preparation failure |
| `Tool.Caught` | tools/rookie_rss.py:57-64 | KeyError goes to the missing-credential clause, ValueError (also a rejected URL) to the invalid-parameter clause, RequestException to the failed-request clause, and TypeError or AttributeError to the unexpected clause |
| `Tool.Messages` | tools/rookie_rss.py:47-64 | at most one message; none exactly when an exception was caught; on success it is the envelope |
| `Tool.MissingPlatformSendsNothing` | tools/rookie_rss.py:57-70 | a missing or `None` platform never reaches `requests.get`, yields nothing, and is logged under the missing-credential clause |
| `Tool.NonStringPlatformSendsNothing` | tools/rookie_rss.py:59-72 | a platform that is not a string never reaches `requests.get`, raises ValueError, and yields nothing |
| `Tool.ErrorStatusYieldsNothing` | tools/rookie_rss.py:40-62 | an error status yields no message; once the prepared request reached `requests.get` it is logged as a failed request |
| `Tool.ResultTypeIgnored` | tools/rookie_rss.py:14-15 | the caller's `result_type` changes nothing in the invocation |
| `Tool.SuccessfulInvocation` | tools/rookie_rss.py:12-55 | a successful invocation passed the prepared request to `requests.get` and got a non-error reply with a JSON body; its one message is `BuildEnvelope` of that body, with `returned` equal to the article count |
| `Tool.EmitsEnvelopeOfBody` | tools/rookie_rss.py:35-55 | after a successful preparation, a non-error reply with a formattable body means exactly the prepared request was passed to `requests.get`, and the tool emits exactly the envelope built from that body |
| `Tool.RejectedUrlLoggedAsInvalidParameter` | tools/rookie_rss.py:35-60 | a URL `requests` rejects yields no message and is logged under the invalid-parameter clause |
| `Tool.ThreeItems` | tools/rookie_rss.py:47-55 | data `[A, B, C]` gives ranks 1, 2, 3 in that order, `returned == 3`, `code == 200`, `total == 0` |

## Left out

- The HTTP GET, `raise_for_status`, `response.json()`, the User-Agent header and the 10-second timeout are not modelled as I/O. `Tool.Invoke` takes the reply as a parameter. It is a URL that `requests.get` rejects without any HTTP request going out, a transport fault, or a status with a body that did or did not decode as JSON. The exceptions `requests` raises for a rejected URL or header derive from both RequestException and ValueError. An example is MissingSchema for an empty `daily_hot_url`, since `urljoin("", "/weibo")` is `"/weibo"`. The model therefore raises them as ValueError.
- `urljoin` and `urlencode`: the model stops at the base URL, the endpoint string and the query map. `urljoin` with an absolute path replaces any path in the base, so the full URL is not a concatenation. The key order `urlencode` would use is also not modelled, and neither is a ValueError that `urljoin` may raise for a malformed base URL.
- A body that is not JSON is modelled as raising ValueError. Both `json.JSONDecodeError` and the `requests` decode error derive from ValueError, and that clause comes before the `RequestException` clause.
- Logging: `_log_error` and the `print` calls are reduced to which `except` clause catches the exception (`Tool.Caught`). The message text is not modelled.
- The Dify plugin plumbing is not modelled: `Tool`, the generator and `yield`, `create_json_message`, `self.runtime.credentials`. Credentials are a string-valued map.
- Floating-point values are not part of `Py.Value`. So `int()` of a float, which truncates, is not modelled, and neither are float `hot` scores.
- `Py.ToInt`: for strings, Python's `int()` also accepts single underscores between digits, non-ASCII decimal digits and non-ASCII whitespace around the literal. The model reports those strings as unparsable (ValueError). Since Python 3.11 and the 2022 security releases (3.10.7, 3.9.14, 3.8.14, 3.7.14), `int()` also raises ValueError for a decimal string longer than 4300 digits. The limit is configurable with `sys.set_int_max_str_digits`, and the model does not have it: it parses literals of any length.
- `Py.AsciiLower`: only ASCII letters are lowered, while Python's `str.lower` is Unicode-aware. The tool only lowers the constant `"json"`.

=== FILE: articles.dfy ===
/** Normalisation of the upstream hot-list envelope into article records:
    `RookieRssTool._format_articles` (tools/rookie_rss.py:78-103). */
module Articles {
  import opened Wrappers
  import opened Py

  datatype Links = Links(pc: Value, mobile: Value)

  datatype Metadata = Metadata(platform: Value, listType: Value, updateTime: Value)

  /** One normalised record. Fields copied from the raw item keep the raw
      value, `Null` when the item lacks the key. */
  datatype Article = Article(
    rank: nat,
    id: Value,
    title: Value,
    author: Value,
    hotScore: Value,
    links: Links,
    metadata: Metadata)

  /** The metadata block every record carries, read from the envelope. */
  function EnvelopeMetadata(envelope: map<string, Value>): Metadata {
    Metadata(Get(envelope, "name", Null), Get(envelope, "type", Null), Get(envelope, "updateTime", Null))
  }

  /** The record built for one raw item at the given rank. */
  function FormatItem(item: map<string, Value>, rank: nat, metadata: Metadata): (a: Article)
    ensures a.rank == rank && a.metadata == metadata
    ensures a.id == (if "id" in item then item["id"] else Null)
    ensures a.title == (if "title" in item then item["title"] else Null)
    ensures a.author == (if "author" in item then item["author"] else Null)
    ensures a.hotScore == (if "hot" in item then item["hot"] else Null)
    ensures a.links == Links(if "url" in item then item["url"] else Null,
                             if "mobileUrl" in item then item["mobileUrl"] else Null)
  {
    Article(
      rank,
      Get(item, "id", Null),
      Get(item, "title", Null),
      Get(item, "author", Null),
      Get(item, "hot", Null),
      Links(Get(item, "url", Null), Get(item, "mobileUrl", Null)),
      metadata)
  }

  predicate AllDicts(items: seq<Value>) {
    forall k :: 0 <= k < |items| ==> items[k].Dict?
  }

  /** The loop over `enumerate(items, first)`: every item must be a
      dictionary, otherwise `item.get` raises AttributeError. */
  function FormatItems(items: seq<Value>, first: nat, metadata: Metadata): (r: Result<seq<Article>, PyError>)
    ensures r.Success? <==> AllDicts(items)
    ensures r.Failure? ==> r.error == AttributeError
    ensures r.Success? ==> |r.value| == |items|
    ensures r.Success? ==> forall k :: 0 <= k < |items| ==>
              r.value[k] == FormatItem(items[k].entries, first + k, metadata)
    decreases |items|
  {
    if |items| == 0 then Success([])
    else
      match items[0]
      case Dict(item) =>
        var rest :- FormatItems(items[1..], first + 1, metadata);
        Success([FormatItem(item, first, metadata)] + rest)
      case _ => Failure(AttributeError)
  }

  /** The envelope's `data` entry, an empty list when the key is absent:
      what the loop walks. */
  function DataField(raw: map<string, Value>): Value {
    Get(raw, "data", List([]))
  }

  /** The envelopes `_format_articles` accepts without raising: a dictionary
      whose `data` is absent, a list of dictionaries, or an empty string or
      dictionary (iterating those yields nothing). */
  predicate Formattable(raw: Value) {
    && raw.Dict?
    && match DataField(raw.entries)
       case List(items) => AllDicts(items)
       case Str(s) => |s| == 0
       case Dict(m) => |m| == 0
       case _ => false
  }

  /** `_format_articles(raw)`: one record per raw item, in order, ranked
      from 1, each with the envelope's metadata. A non-dictionary envelope
      raises AttributeError at `raw.get`; a `data` value that is not
      iterable raises TypeError; a non-dictionary item raises
      AttributeError at `item.get`. */
  function FormatArticles(raw: Value): (r: Result<seq<Article>, PyError>)
    ensures r.Success? <==> Formattable(raw)
    ensures r.Failure? ==> r.error == AttributeError || r.error == TypeError
    ensures r.Success? && DataField(raw.entries).List? ==>
              |r.value| == |DataField(raw.entries).items|
    ensures r.Success? && !DataField(raw.entries).List? ==> r.value == []
    ensures raw.Dict? && "data" !in raw.entries ==> r == Success([])
  {
    if !raw.Dict? then Failure(AttributeError)
    else
      var metadata := EnvelopeMetadata(raw.entries);
      match DataField(raw.entries)
      case List(items) => FormatItems(items, 1, metadata)
      case Str(s) => if |s| == 0 then Success([]) else Failure(AttributeError)
      case Dict(m) => if |m| == 0 then Success([]) else Failure(AttributeError)
      case _ => Failure(TypeError)
  }

  /** Field mapping of record `k`: rank `k + 1`; `id`, `title`, `author`,
      `hot_score`, `links.pc` and `links.mobile` are the item's `id`,
      `title`, `author`, `hot`, `url` and `mobileUrl` (`Null` when the key
      is missing, never another default); `metadata` comes from the
      envelope's `name`, `type` and `updateTime`, not from the item. */
  lemma ArticleFields(raw: Value, k: int)
    requires FormatArticles(raw).Success?
    requires 0 <= k < |FormatArticles(raw).value|
    ensures DataField(raw.entries).List?
    ensures var item := DataField(raw.entries).items[k];
            var a := FormatArticles(raw).value[k];
            && item.Dict?
            && a.rank == k + 1
            && a.id == (if "id" in item.entries then item.entries["id"] else Null)
            && a.title == (if "title" in item.entries then item.entries["title"] else Null)
            && a.author == (if "author" in item.entries then item.entries["author"] else Null)
            && a.hotScore == (if "hot" in item.entries then item.entries["hot"] else Null)
            && a.links.pc == (if "url" in item.entries then item.entries["url"] else Null)
            && a.links.mobile == (if "mobileUrl" in item.entries then item.entries["mobileUrl"] else Null)
            && a.metadata.platform == (if "name" in raw.entries then raw.entries["name"] else Null)
            && a.metadata.listType == (if "type" in raw.entries then raw.entries["type"] else Null)
            && a.metadata.updateTime == (if "updateTime" in raw.entries then raw.entries["updateTime"] else Null)
  {
  }

  /** The ranks are exactly 1, 2, ..., n in order, with no gaps. */
  lemma RanksAreOneToN(raw: Value)
    requires FormatArticles(raw).Success?
    ensures var articles := FormatArticles(raw).value;
            forall k :: 0 <= k < |articles| ==> articles[k].rank == k + 1
  {
    forall k | 0 <= k < |FormatArticles(raw).value| {
      ArticleFields(raw, k);
    }
  }

  /** All records share one metadata block. */
  lemma MetadataShared(raw: Value)
    requires FormatArticles(raw).Success?
    ensures forall a :: a in FormatArticles(raw).value ==> a.metadata == EnvelopeMetadata(raw.entries)
  {
  }

  /** Formatting a concatenation formats the two parts independently, the
      second ranked after the first: the output order is the input order. */
  lemma FormatItemsAppend(xs: seq<Value>, ys: seq<Value>, first: nat, metadata: Metadata)
    requires AllDicts(xs) && AllDicts(ys)
    ensures FormatItems(xs + ys, first, metadata).Success?
    ensures FormatItems(xs + ys, first, metadata).value ==
            FormatItems(xs, first, metadata).value + FormatItems(ys, first + |xs|, metadata).value
  {
    var zs := xs + ys;
    assert AllDicts(zs) by {
      forall k | 0 <= k < |zs| ensures zs[k].Dict? {
        if k < |xs| { assert zs[k] == xs[k]; } else { assert zs[k] == ys[k - |xs|]; }
      }
    }
    var all := FormatItems(zs, first, metadata).value;
    var front := FormatItems(xs, first, metadata).value;
    var back := FormatItems(ys, first + |xs|, metadata).value;
    assert |all| == |front + back|;
    forall k | 0 <= k < |all|
      ensures all[k] == (front + back)[k]
    {
      if k < |xs| {
        assert zs[k] == xs[k];
      } else {
        assert zs[k] == ys[k - |xs|];
      }
    }
  }

  /** The records depend only on the item list and the envelope metadata:
      any other envelope key leaves them unchanged. */
  lemma OtherEnvelopeKeysIgnored(raw: map<string, Value>, key: string, v: Value)
    requires key !in {"data", "name", "type", "updateTime"}
    ensures FormatArticles(Dict(raw[key := v])) == FormatArticles(Dict(raw))
  {
    assert DataField(raw[key := v]) == DataField(raw);
    assert EnvelopeMetadata(raw[key := v]) == EnvelopeMetadata(raw);
  }
}

=== FILE: py.dfy ===
/** The fragment of Python's data model that the tool relies on: the values a
    decoded JSON document or a tool-parameter dictionary can hold, the
    exceptions the tool's code can raise, and the built-ins it calls on them
    (`dict.get`, `len`, `isinstance`, `int`, `str.strip`, `str.lower`). */
module Py {
  import opened Wrappers

  /** A Python value as produced by `json` decoding: `None`, `bool`, `int`,
      `str`, `list` or `dict` with string keys. */
  datatype Value =
    | Null
    | Bool(b: bool)
    | Int(i: int)
    | Str(s: string)
    | List(items: seq<Value>)
    | Dict(entries: map<string, Value>)

  /** The exceptions the modelled code can raise. */
  datatype PyError =
    | KeyError(key: string)
    | ValueError(subject: string)
    | TypeError
    | AttributeError
    | RequestException

  /** The built-in types an `isinstance` check can name. */
  datatype PyType = NoneType | BoolType | IntType | StrType | ListType | DictType

  /** `d.get(key, default)`: never raises. */
  function Get(d: map<string, Value>, key: string, default: Value): Value {
    if key in d then d[key] else default
  }

  /** `isinstance(v, t)`; `bool` is a subclass of `int`. */
  predicate IsInstance(v: Value, t: PyType) {
    match t
    case NoneType => v.Null?
    case BoolType => v.Bool?
    case IntType => v.Int? || v.Bool?
    case StrType => v.Str?
    case ListType => v.List?
    case DictType => v.Dict?
  }

  /** `len(v)`: defined on strings, lists and dictionaries only. */
  function Len(v: Value): (r: Result<nat, PyError>)
    ensures r.Success? <==> v.Str? || v.List? || v.Dict?
    ensures r.Failure? ==> r.error == TypeError
    ensures v.Str? ==> r == Success(|v.s|)
    ensures v.List? ==> r == Success(|v.items|)
    ensures v.Dict? ==> r == Success(|v.entries|)
  {
    match v
    case Str(s) => Success(|s|)
    case List(items) => Success(|items|)
    case Dict(entries) => Success(|entries|)
    case _ => Failure(TypeError)
  }

  // ---------------------------------------------------------------------
  // str.strip
  // ---------------------------------------------------------------------

  /** `s.lstrip(chars)`: the longest prefix made of `chars` is dropped. */
  function StripLeft(s: string, chars: set<char>): (r: string)
    ensures |r| <= |s| && r == s[|s| - |r|..]
    ensures forall k :: 0 <= k < |s| - |r| ==> s[k] in chars
    ensures |r| > 0 ==> r[0] !in chars
    decreases |s|
  {
    if |s| > 0 && s[0] in chars then StripLeft(s[1..], chars) else s
  }

  /** `s.rstrip(chars)`: the longest suffix made of `chars` is dropped. */
  function StripRight(s: string, chars: set<char>): (r: string)
    ensures |r| <= |s| && r == s[..|r|]
    ensures forall k :: |r| <= k < |s| ==> s[k] in chars
    ensures |r| > 0 ==> r[|r| - 1] !in chars
    decreases |s|
  {
    if |s| > 0 && s[|s| - 1] in chars then StripRight(s[..|s| - 1], chars) else s
  }

  /** `r` is the slice `s[lo..lo + |r|]` and everything around it is in `chars`. */
  ghost predicate StrippedAt(s: string, chars: set<char>, r: string, lo: int) {
    && 0 <= lo && lo + |r| <= |s|
    && r == s[lo..lo + |r|]
    && (forall k :: 0 <= k < lo ==> s[k] in chars)
    && (forall k :: lo + |r| <= k < |s| ==> s[k] in chars)
  }

  /** `s.strip(chars)`: characters in `chars` are removed from both ends. */
  function Strip(s: string, chars: set<char>): (r: string)
    ensures exists lo :: StrippedAt(s, chars, r, lo)
    ensures |r| > 0 ==> r[0] !in chars && r[|r| - 1] !in chars
  {
    var l := StripLeft(s, chars);
    var r := StripRight(l, chars);
    assert StrippedAt(s, chars, r, |s| - |l|);
    r
  }

  /** Stripping a run of `chars` off the front of a string that does not
      continue with one of `chars` leaves exactly the rest. */
  lemma {:induction false} StripLeftExact(a: string, t: string, chars: set<char>)
    requires forall k :: 0 <= k < |a| ==> a[k] in chars
    requires |t| > 0 ==> t[0] !in chars
    ensures StripLeft(a + t, chars) == t
    decreases |a|
  {
    if |a| > 0 {
      assert (a + t)[0] == a[0];
      assert (a + t)[1..] == a[1..] + t;
      StripLeftExact(a[1..], t, chars);
    } else {
      assert a + t == t;
    }
  }

  /** The mirror image of `StripLeftExact`. */
  lemma {:induction false} StripRightExact(t: string, b: string, chars: set<char>)
    requires forall k :: 0 <= k < |b| ==> b[k] in chars
    requires |t| > 0 ==> t[|t| - 1] !in chars
    ensures StripRight(t + b, chars) == t
    decreases |b|
  {
    if |b| > 0 {
      var s := t + b;
      assert s[|s| - 1] == b[|b| - 1];
      assert s[..|s| - 1] == t + b[..|b| - 1];
      StripRightExact(t, b[..|b| - 1], chars);
    } else {
      assert t + b == t;
    }
  }

  /** `Strip` is the unique such decomposition: whenever `s` is a run of
      `chars`, then a middle part neither starting nor ending with one of
      `chars`, then another run, stripping `s` yields that middle part. */
  lemma StripUnique(a: string, m: string, b: string, chars: set<char>)
    requires forall k :: 0 <= k < |a| ==> a[k] in chars
    requires forall k :: 0 <= k < |b| ==> b[k] in chars
    requires |m| > 0 ==> m[0] !in chars && m[|m| - 1] !in chars
    ensures Strip(a + m + b, chars) == m
  {
    assert a + m + b == a + (m + b);
    if |m| > 0 {
      StripLeftExact(a, m + b, chars);
      StripRightExact(m, b, chars);
    } else {
      assert m + b == b;
      if |b| > 0 {
        assert b[0] in chars;
        StripLeftExact(a + b, [], chars);
        assert a + b + [] == a + b;
      } else {
        StripLeftExact(a, [], chars);
        assert a + [] == a;
      }
      StripRightExact([], [], chars);
    }
  }

  /** Stripping twice is the same as stripping once. */
  lemma StripIdempotent(s: string, chars: set<char>)
    ensures Strip(Strip(s, chars), chars) == Strip(s, chars)
  {
    var r := Strip(s, chars);
    StripUnique([], r, [], chars);
    assert [] + r + [] == r;
  }

  // ---------------------------------------------------------------------
  // str.lower
  // ---------------------------------------------------------------------

  predicate IsAsciiUpper(c: char) {
    'A' <= c <= 'Z'
  }

  predicate IsAsciiLowercase(c: char) {
    'a' <= c <= 'z'
  }

  /** `s.lower()` on ASCII letters; other characters are unchanged. */
  function AsciiLower(s: string): (r: string)
    ensures |r| == |s|
    ensures forall k :: 0 <= k < |s| && IsAsciiUpper(s[k]) ==>
              IsAsciiLowercase(r[k]) && r[k] as int - s[k] as int == 'a' as int - 'A' as int
    ensures forall k :: 0 <= k < |s| && !IsAsciiUpper(s[k]) ==> r[k] == s[k]
    ensures forall k :: 0 <= k < |r| ==> !IsAsciiUpper(r[k])
  {
    seq(|s|, k requires 0 <= k < |s| => if IsAsciiUpper(s[k]) then (s[k] as int + 32) as char else s[k])
  }

  /** Lowering twice is the same as lowering once. */
  lemma AsciiLowerIdempotent(s: string)
    ensures AsciiLower(AsciiLower(s)) == AsciiLower(s)
  {
    var r := AsciiLower(s);
    assert forall k :: 0 <= k < |r| ==> AsciiLower(r)[k] == r[k];
  }

  /** Two strings lower to the same string exactly when they agree letter by
      letter up to ASCII case. */
  lemma AsciiLowerMatches(s: string, t: string)
    requires forall k :: 0 <= k < |t| ==> !IsAsciiUpper(t[k])
    ensures AsciiLower(s) == t <==>
              |s| == |t| && forall k :: 0 <= k < |s| ==> (s[k] == t[k] || (IsAsciiUpper(s[k]) && s[k] as int + 32 == t[k] as int))
  {
    if |s| == |t| && forall k :: 0 <= k < |s| ==> (s[k] == t[k] || (IsAsciiUpper(s[k]) && s[k] as int + 32 == t[k] as int)) {
      assert forall k :: 0 <= k < |s| ==> AsciiLower(s)[k] == t[k];
    }
  }

  // ---------------------------------------------------------------------
  // int()
  // ---------------------------------------------------------------------

  /** The ASCII characters `int()` skips around a decimal literal (a subset
      of what `str.strip()` removes, which also drops `\x1c` to `\x1f`). */
  const Whitespace: set<char> := {' ', '\t', '\n', '\r', '\U{B}', '\U{C}'}

  predicate IsDigit(c: char) {
    '0' <= c <= '9'
  }

  predicate AllDigits(ds: string) {
    forall k :: 0 <= k < |ds| ==> IsDigit(ds[k])
  }

  /** The value of a string of decimal digits, most significant first. */
  function DigitsValue(ds: string): nat
    requires AllDigits(ds)
    decreases |ds|
  {
    if |ds| == 0 then 0
    else DigitsValue(ds[..|ds| - 1]) * 10 + (ds[|ds| - 1] as int - '0' as int)
  }

  /** A non-empty run of decimal digits, or nothing. */
  function ParseDigits(ds: string): Option<nat> {
    if |ds| > 0 && AllDigits(ds) then Some(DigitsValue(ds)) else None
  }

  /** An optional sign followed by at least one decimal digit. */
  function ParseSigned(t: string): Option<int> {
    if |t| > 0 && (t[0] == '+' || t[0] == '-') then
      match ParseDigits(t[1..])
      case None => None
      case Some(n) => Some(if t[0] == '-' then -(n as int) else n)
    else
      match ParseDigits(t)
      case None => None
      case Some(n) => Some(n)
  }

  /** `int(s)` for a string: a signed decimal literal, possibly surrounded
      by whitespace. */
  function ParseInt(s: string): Option<int> {
    ParseSigned(Strip(s, Whitespace))
  }

  /** `int(v)`: integers pass through, booleans become 0 or 1, strings are
      parsed (ValueError when they are not an integer literal), and `None`,
      lists and dictionaries raise TypeError. */
  function ToInt(v: Value): (r: Result<int, PyError>)
    ensures v.Int? ==> r == Success(v.i)
    ensures v.Bool? ==> r == Success(if v.b then 1 else 0)
    ensures r.Failure? <==> (v.Str? && ParseInt(v.s).None?) || v.Null? || v.List? || v.Dict?
    ensures r.Failure? ==> (r.error.ValueError? <==> v.Str?)
    ensures v.Null? || v.List? || v.Dict? ==> r == Failure(TypeError)
  {
    match v
    case Int(i) => Success(i)
    case Bool(b) => Success(if b then 1 else 0)
    case Str(s) =>
      (match ParseInt(s)
       case Some(n) => Success(n)
       case None => Failure(ValueError("int")))
    case _ => Failure(TypeError)
  }

  /** `str(n)` for a natural number. */
  function ShowNat(n: nat): (r: string)
    ensures |r| > 0 && AllDigits(r)
  {
    if n < 10 then [('0' as int + n) as char]
    else ShowNat(n / 10) + [('0' as int + n % 10) as char]
  }

  /** `str(n)`. */
  function ShowInt(n: int): (r: string)
    ensures |r| > 0
  {
    if n < 0 then "-" + ShowNat(-n) else ShowNat(n)
  }

  /** Reading back the digits of `n` gives `n`. */
  lemma {:induction false} DigitsRoundTrip(n: nat)
    ensures DigitsValue(ShowNat(n)) == n
  {
    var ds := ShowNat(n);
    if n >= 10 {
      DigitsRoundTrip(n / 10);
      assert ds[..|ds| - 1] == ShowNat(n / 10);
    }
  }

  /** The literal `str(n)` is an optional minus sign and then the digits
      of `|n|`; its ends are not whitespace. */
  lemma ShowIntShape(n: int)
    ensures var t := ShowInt(n); t[0] !in Whitespace && t[|t| - 1] !in Whitespace
    ensures n < 0 ==> ShowInt(n)[0] == '-' && ShowInt(n)[1..] == ShowNat(-n)
    ensures n >= 0 ==> ShowInt(n) == ShowNat(n) && IsDigit(ShowInt(n)[0])
  {
    var t := ShowInt(n);
    var mag := ShowNat(if n < 0 then -n else n);
    assert IsDigit(mag[0]) && IsDigit(mag[|mag| - 1]);
    if n < 0 {
      assert t[1..] == mag;
      assert t[|t| - 1] == mag[|mag| - 1];
    }
  }

  /** The literal `str(n)` reads back as `n`. */
  lemma ParseShownInt(n: int)
    ensures ParseInt(ShowInt(n)) == Some(n)
  {
    var t := ShowInt(n);
    ShowIntShape(n);
    StripUnique([], t, [], Whitespace);
    assert [] + t + [] == t;
    assert Strip(t, Whitespace) == t;
    ParseSignedShownInt(n);
  }

  lemma ParseSignedShownInt(n: int)
    ensures ParseSigned(ShowInt(n)) == Some(n)
  {
    var t := ShowInt(n);
    ShowIntShape(n);
    if n < 0 {
      DigitsRoundTrip(-n);
      assert ParseDigits(t[1..]) == Some(-n);
    } else {
      DigitsRoundTrip(n);
      assert ParseDigits(t) == Some(n);
    }
  }

  /** `int(str(n)) == n`, also with whitespace around the literal. */
  lemma IntOfShownInt(n: int, pre: string, post: string)
    requires forall k :: 0 <= k < |pre| ==> pre[k] in Whitespace
    requires forall k :: 0 <= k < |post| ==> post[k] in Whitespace
    ensures ToInt(Str(pre + ShowInt(n) + post)) == Success(n)
  {
    var t := ShowInt(n);
    ShowIntShape(n);
    ParseShownInt(n);
    StripUnique(pre, t, post, Whitespace);
    StripUnique([], t, [], Whitespace);
    assert [] + t + [] == t;
    assert Strip(pre + t + post, Whitespace) == Strip(t, Whitespace);
  }

  /** A run of `'0'`s is worth nothing. */
  lemma {:induction false} ZerosValue(z: string)
    requires forall k :: 0 <= k < |z| ==> z[k] == '0'
    ensures AllDigits(z) && DigitsValue(z) == 0
    decreases |z|
  {
    if |z| > 0 {
      ZerosValue(z[..|z| - 1]);
    }
  }

  /** Leading zeros do not change the value of a run of digits. */
  lemma {:induction false} ZeroPadded(z: string, ds: string)
    requires forall k :: 0 <= k < |z| ==> z[k] == '0'
    requires AllDigits(ds)
    ensures AllDigits(z + ds) && DigitsValue(z + ds) == DigitsValue(ds)
    decreases |ds|
  {
    ZerosValue(z);
    if |ds| == 0 {
      assert z + ds == z;
    } else {
      var s := z + ds;
      assert s[..|s| - 1] == z + ds[..|ds| - 1];
      assert s[|s| - 1] == ds[|ds| - 1];
      ZeroPadded(z, ds[..|ds| - 1]);
    }
  }

  /** A sign and zero-padded digits parse to the signed value. */
  lemma SignedLiteral(sign: string, z: string, n: nat)
    requires sign == "" || sign == "+" || sign == "-"
    requires forall k :: 0 <= k < |z| ==> z[k] == '0'
    ensures ParseSigned(sign + z + ShowNat(n)) == Some(if sign == "-" then -(n as int) else n as int)
  {
    var digits := z + ShowNat(n);
    var t := sign + digits;
    assert sign + z + ShowNat(n) == t;
    DigitsRoundTrip(n);
    ZeroPadded(z, ShowNat(n));
    assert ParseDigits(digits) == Some(n);
    if sign == "" {
      assert t == digits;
    } else {
      assert t[1..] == digits;
    }
  }

  /** A signed, zero-padded literal neither starts nor ends with whitespace. */
  lemma LiteralShape(sign: string, z: string, n: nat)
    requires sign == "" || sign == "+" || sign == "-"
    requires forall k :: 0 <= k < |z| ==> z[k] == '0'
    ensures var t := sign + z + ShowNat(n); t[0] !in Whitespace && t[|t| - 1] !in Whitespace
  {
    var ds := ShowNat(n);
    var t := sign + z + ds;
    assert IsDigit(ds[0]) && IsDigit(ds[|ds| - 1]);
    assert t[|t| - 1] == ds[|ds| - 1];
    if sign == "" && |z| == 0 {
      assert t[0] == ds[0];
    }
  }

  /** Concatenation regrouped around a middle part. */
  lemma Regroup(a: string, b: string, c: string, d: string, e: string)
    ensures a + b + c + d + e == a + (b + c + d) + e
  {
  }

  /** Whitespace around a literal does not change what `int()` reads. */
  lemma IntOfTrimmed(pre: string, t: string, post: string)
    requires forall k :: 0 <= k < |pre| ==> pre[k] in Whitespace
    requires forall k :: 0 <= k < |post| ==> post[k] in Whitespace
    requires |t| > 0 && t[0] !in Whitespace && t[|t| - 1] !in Whitespace
    ensures ParseInt(pre + t + post) == ParseSigned(t)
  {
    StripUnique(pre, t, post, Whitespace);
  }

  /** `int()` of a decimal literal with an optional `+` or `-`, any number
      of leading zeros and whitespace around it: `int(" +007\n") == 7`. */
  lemma IntOfLiteral(sign: string, z: string, n: nat, pre: string, post: string)
    requires sign == "" || sign == "+" || sign == "-"
    requires forall k :: 0 <= k < |z| ==> z[k] == '0'
    requires forall k :: 0 <= k < |pre| ==> pre[k] in Whitespace
    requires forall k :: 0 <= k < |post| ==> post[k] in Whitespace
    ensures ToInt(Str(pre + sign + z + ShowNat(n) + post)) == Success(if sign == "-" then -(n as int) else n as int)
  {
    var t := sign + z + ShowNat(n);
    LiteralShape(sign, z, n);
    Regroup(pre, sign, z, ShowNat(n), post);
    IntOfTrimmed(pre, t, post);
    SignedLiteral(sign, z, n);
  }
}

=== FILE: tool.dfy ===
/** `RookieRssTool` (tools/rookie_rss.py:8-73): parameter validation, request
    preparation and the success envelope, with the HTTP exchange supplied as
    a parameter. Every failure is caught and logged by the tool, so a
    failure means that no message is emitted. */
module Tool {
  import opened Wrappers
  import opened Py
  import opened Url
  import opened Articles

  /** The credential naming the upstream aggregator's base URL. */
  const BaseUrlCredential: string := "daily_hot_url"

  /** `result_num` when the caller gives none. */
  const DefaultResultNum: int := 10

  /** `code` in the envelope when the upstream body has none. */
  const DefaultCode: int := 200

  /** `pagination.total` when the upstream body has none. */
  const DefaultTotal: int := 0

  datatype Request = Request(baseUrl: string, endpoint: string, query: map<string, QueryValue>)

  /** What `requests.get` does with the request. `UrlRejected`: it refuses
      the URL and no HTTP request goes out (a missing or unsupported scheme,
      an invalid URL or header); those exceptions derive from both
      RequestException and ValueError. `TransportFault`: a timeout or connection error. `Reply`:
      a status with a body that either decodes as JSON or not. */
  datatype HttpReply = UrlRejected | TransportFault | Reply(status: int, body: Option<Value>)

  datatype Pagination = Pagination(total: Value, returned: nat)

  datatype ResultEnvelope = ResultEnvelope(status: string, code: Value, articles: seq<Article>, pagination: Pagination)

  /** What one invocation did: the request it passed to `requests.get`, if
      it got that far, and the envelope it built or the exception that ended
      it. */
  datatype Invocation = Invocation(sent: Option<Request>, outcome: Result<ResultEnvelope, PyError>)

  /** The log line an exception ends up under: the four `except` clauses of
      `_invoke`, tried in order. */
  datatype LogBranch = MissingCredentialLog | InvalidParameterLog | RequestFailedLog | UnexpectedLog

  /** `_get_required_param(params, key, expected)`: an absent or `None`
      value raises KeyError, a value of another type raises ValueError,
      anything else is returned as it is. */
  function GetRequiredParam(params: map<string, Value>, key: string, expected: PyType): (r: Result<Value, PyError>)
    ensures r == Failure(KeyError(key)) <==> key !in params || params[key] == Null
    ensures r == Failure(ValueError(key)) <==>
              key in params && params[key] != Null && !IsInstance(params[key], expected)
    ensures r.Success? <==> key in params && params[key] != Null && IsInstance(params[key], expected)
    ensures r.Success? ==> r.value == params[key]
  {
    var value := Get(params, key, Null);
    if value == Null then Failure(KeyError(key))
    else if !IsInstance(value, expected) then Failure(ValueError(key))
    else Success(value)
  }

  /** The outcome of `_get_required_param` depends on the entry for `key`
      alone: other parameters never change it. */
  lemma RequiredParamIsLocal(p1: map<string, Value>, p2: map<string, Value>, key: string, expected: PyType)
    requires key in p1 <==> key in p2
    requires key in p1 ==> p1[key] == p2[key]
    ensures GetRequiredParam(p1, key, expected) == GetRequiredParam(p2, key, expected)
  {
  }

  /** The first part of `_invoke`: read the credential, validate `platform`,
      convert `result_num` (default 10), and build endpoint and query. The
      first step that raises decides the exception. */
  function PrepareRequest(credentials: map<string, string>, params: map<string, Value>): (r: Result<Request, PyError>)
    ensures BaseUrlCredential !in credentials ==> r == Failure(KeyError(BaseUrlCredential))
    ensures BaseUrlCredential in credentials && GetRequiredParam(params, "platform", StrType).Failure? ==>
              r == Failure(GetRequiredParam(params, "platform", StrType).error)
    ensures BaseUrlCredential in credentials && GetRequiredParam(params, "platform", StrType).Success?
              && ToInt(Get(params, "result_num", Int(DefaultResultNum))).Failure? ==>
              r == Failure(ToInt(Get(params, "result_num", Int(DefaultResultNum))).error)
    ensures BaseUrlCredential in credentials ==>
              (r.Success? <==>
                 && GetRequiredParam(params, "platform", StrType).Success?
                 && ToInt(Get(params, "result_num", Int(DefaultResultNum))).Success?)
    ensures r.Success? ==>
              && r.value.baseUrl == credentials[BaseUrlCredential]
              && "platform" in params && params["platform"].Str?
              && r.value.endpoint == Endpoint(params["platform"].s)
              && r.value.query.Keys == {"limit"}
              && ("result_num" !in params ==> r.value.query["limit"] == QInt(DefaultResultNum))
              && ("result_num" in params ==>
                    r.value.query["limit"] == QInt(ToInt(params["result_num"]).value))
  {
    if BaseUrlCredential !in credentials then Failure(KeyError(BaseUrlCredential))
    else
      var baseUrl := credentials[BaseUrlCredential];
      var platform :- GetRequiredParam(params, "platform", StrType);
      var resultNum :- ToInt(Get(params, "result_num", Int(DefaultResultNum)));
      PinnedQueryIsLimitOnly(resultNum);
      Success(Request(baseUrl, Endpoint(platform.s), QueryParams(PinnedResultType, resultNum)))
  }

  /** The statuses `raise_for_status` rejects. */
  predicate IsErrorStatus(status: int) {
    400 <= status < 600
  }

  /** `raise_for_status`: a client error (4xx) or a server error (5xx)
      raises HTTPError, a RequestException; any other status, including
      1xx and 3xx, passes. */
  function RaiseForStatus(status: int): (r: Result<int, PyError>)
    ensures r.Failure? <==> IsErrorStatus(status)
    ensures r.Failure? ==> r.error == RequestException
    ensures r.Success? ==> r.value == status
  {
    if 400 <= status < 500 then Failure(RequestException)
    else if 500 <= status < 600 then Failure(RequestException)
    else Success(status)
  }

  /** The success envelope built from a decoded body: `code` (200 when
      absent), the formatted articles, `total` (0 when absent) and the
      number of raw items. */
  function BuildEnvelope(body: Value): (r: Result<ResultEnvelope, PyError>)
    ensures r.Success? <==> Formattable(body)
    ensures r.Success? ==>
              && r.value.status == "success"
              && r.value.articles == FormatArticles(body).value
              && r.value.pagination.returned == |r.value.articles|
              && r.value.code == (if "code" in body.entries then body.entries["code"] else Int(DefaultCode))
              && r.value.pagination.total == (if "total" in body.entries then body.entries["total"] else Int(DefaultTotal))
    ensures r.Failure? ==> r.error == AttributeError || r.error == TypeError
  {
    if !body.Dict? then Failure(AttributeError)
    else
      var code := Get(body.entries, "code", Int(DefaultCode));
      var articles :- FormatArticles(body);
      var total := Get(body.entries, "total", Int(DefaultTotal));
      match Len(DataField(body.entries))
      case Success(returned) => Success(ResultEnvelope("success", code, articles, Pagination(total, returned)))
      case Failure(e) => Failure(e)
  }

  /** The second part of `_invoke`: from the HTTP reply to the envelope.
      A rejected URL and a body that is not JSON raise ValueError; transport
      faults and error statuses raise RequestException. */
  function Respond(reply: HttpReply): (r: Result<ResultEnvelope, PyError>)
    ensures reply.UrlRejected? ==> r == Failure(ValueError("url"))
    ensures reply.TransportFault? ==> r == Failure(RequestException)
    ensures reply.Reply? && IsErrorStatus(reply.status) ==> r == Failure(RequestException)
    ensures reply.Reply? && !IsErrorStatus(reply.status) && reply.body.None? ==> r == Failure(ValueError("response"))
    ensures reply.Reply? && !IsErrorStatus(reply.status) && reply.body.Some? ==> r == BuildEnvelope(reply.body.value)
    ensures r.Success? <==>
              reply.Reply? && !IsErrorStatus(reply.status) && reply.body.Some? && Formattable(reply.body.value)
  {
    match reply
    case UrlRejected => Failure(ValueError("url"))
    case TransportFault => Failure(RequestException)
    case Reply(status, body) =>
      match RaiseForStatus(status)
      case Failure(e) => Failure(e)
      case Success(_) =>
        match body
        case None => Failure(ValueError("response"))
        case Some(v) => BuildEnvelope(v)
  }

  /** One invocation of the tool against the given reply. */
  function Invoke(credentials: map<string, string>, params: map<string, Value>, reply: HttpReply): (inv: Invocation)
    ensures inv.sent.Some? <==> PrepareRequest(credentials, params).Success?
    ensures inv.sent.None? ==> inv.outcome == Failure(PrepareRequest(credentials, params).error)
    ensures inv.sent.Some? ==>
              inv.sent.value == PrepareRequest(credentials, params).value && inv.outcome == Respond(reply)
    ensures inv.outcome.Success? ==> inv.sent.Some? && reply.Reply? && !IsErrorStatus(reply.status)
  {
    match PrepareRequest(credentials, params)
    case Failure(e) => Invocation(None, Failure(e))
    case Success(request) => Invocation(Some(request), Respond(reply))
  }

  /** The `except` clause that catches `e`: the clauses are tried in order,
      and the exceptions `requests` raises for a rejected URL are ValueErrors
      too, so they are logged as invalid parameters. */
  function Caught(e: PyError): (b: LogBranch)
    ensures b == MissingCredentialLog <==> e.KeyError?
    ensures b == InvalidParameterLog <==> e.ValueError?
    ensures b == RequestFailedLog <==> e == RequestException
    ensures b == UnexpectedLog <==> e == TypeError || e == AttributeError
  {
    match e
    case KeyError(_) => MissingCredentialLog
    case ValueError(_) => InvalidParameterLog
    case RequestException => RequestFailedLog
    case _ => UnexpectedLog
  }

  /** The messages the tool yields: the envelope on success, nothing at all
      when an exception was caught and logged. */
  function Messages(inv: Invocation): (ms: seq<ResultEnvelope>)
    ensures |ms| <= 1
    ensures ms == [] <==> inv.outcome.Failure?
    ensures inv.outcome.Success? ==> ms[0] == inv.outcome.value
  {
    match inv.outcome
    case Success(envelope) => [envelope]
    case Failure(_) => []
  }

  /** A missing or `None` platform never reaches `requests.get` and yields nothing; the
      KeyError lands in the clause that logs a missing credential. */
  lemma MissingPlatformSendsNothing(credentials: map<string, string>, params: map<string, Value>, reply: HttpReply)
    requires BaseUrlCredential in credentials
    requires "platform" !in params || params["platform"] == Null
    ensures Invoke(credentials, params, reply).sent == None
    ensures Invoke(credentials, params, reply).outcome == Failure(KeyError("platform"))
    ensures Messages(Invoke(credentials, params, reply)) == []
    ensures Caught(KeyError("platform")) == MissingCredentialLog
  {
  }

  /** A platform that is not a string never reaches `requests.get` and
      yields nothing. */
  lemma NonStringPlatformSendsNothing(credentials: map<string, string>, params: map<string, Value>, reply: HttpReply)
    requires BaseUrlCredential in credentials
    requires "platform" in params && params["platform"] != Null && !params["platform"].Str?
    ensures Invoke(credentials, params, reply).sent == None
    ensures Invoke(credentials, params, reply).outcome == Failure(ValueError("platform"))
    ensures Messages(Invoke(credentials, params, reply)) == []
  {
  }

  /** An error status from upstream yields nothing and is logged as a
      failed request, whatever the body. */
  lemma ErrorStatusYieldsNothing(credentials: map<string, string>, params: map<string, Value>, status: int, body: Option<Value>)
    requires IsErrorStatus(status)
    ensures Messages(Invoke(credentials, params, Reply(status, body))) == []
    ensures Invoke(credentials, params, Reply(status, body)).outcome.Failure?
    ensures PrepareRequest(credentials, params).Success? ==>
              Caught(Invoke(credentials, params, Reply(status, body)).outcome.error) == RequestFailedLog
  {
    var inv := Invoke(credentials, params, Reply(status, body));
    if PrepareRequest(credentials, params).Success? {
      assert inv.outcome == Respond(Reply(status, body));
    }
  }

  /** The caller's `result_type` has no effect on anything the tool does. */
  lemma ResultTypeIgnored(credentials: map<string, string>, params: map<string, Value>, reply: HttpReply, v: Value)
    ensures Invoke(credentials, params["result_type" := v], reply) == Invoke(credentials, params, reply)
  {
    var p2 := params["result_type" := v];
    RequiredParamIsLocal(p2, params, "platform", StrType);
    assert Get(p2, "result_num", Int(DefaultResultNum)) == Get(params, "result_num", Int(DefaultResultNum));
  }

  /** A prepared request targets the configured base URL at `/` + the
      stripped platform, never asks for `rss`, and asks for 10 items when
      `result_num` is absent. */
  lemma PreparedRequestShape(credentials: map<string, string>, params: map<string, Value>)
    requires PrepareRequest(credentials, params).Success?
    ensures var request := PrepareRequest(credentials, params).value;
            && "platform" in params && params["platform"].Str?
            && BaseUrlCredential in credentials
            && request.baseUrl == credentials[BaseUrlCredential]
            && request.endpoint == "/" + Strip(params["platform"].s, Slash)
            && "rss" !in request.query
            && ("result_num" !in params ==> request.query == map["limit" := QInt(10)])
  {
    var request := PrepareRequest(credentials, params).value;
    var platform := GetRequiredParam(params, "platform", StrType).value;
    var n := ToInt(Get(params, "result_num", Int(DefaultResultNum))).value;
    assert request == Request(credentials[BaseUrlCredential], Endpoint(platform.s), QueryParams(PinnedResultType, n));
    PinnedQueryIsLimitOnly(n);
  }

  /** A successful invocation passed the prepared request to `requests.get` (see
      `PreparedRequestShape`) and emitted its one envelope, whose `returned`
      is the number of articles. */
  lemma SuccessfulInvocation(credentials: map<string, string>, params: map<string, Value>, reply: HttpReply)
    requires Invoke(credentials, params, reply).outcome.Success?
    ensures PrepareRequest(credentials, params).Success?
    ensures var inv := Invoke(credentials, params, reply);
            && inv.sent == Some(PrepareRequest(credentials, params).value)
            && reply.Reply? && reply.body.Some?
            && inv.outcome == BuildEnvelope(reply.body.value)
            && Messages(inv) == [inv.outcome.value]
            && inv.outcome.value.pagination.returned == |inv.outcome.value.articles|
  {
  }

  /** End to end: once the request is prepared, a non-error reply with a
      formattable JSON body makes the tool emit exactly the envelope built
      from that body, after passing exactly the prepared request to
      `requests.get`. */
  lemma EmitsEnvelopeOfBody(credentials: map<string, string>, params: map<string, Value>, status: int, body: Value)
    requires PrepareRequest(credentials, params).Success?
    requires !IsErrorStatus(status) && Formattable(body)
    ensures var inv := Invoke(credentials, params, Reply(status, Some(body)));
            && inv.sent == Some(PrepareRequest(credentials, params).value)
            && BuildEnvelope(body).Success?
            && Messages(inv) == [BuildEnvelope(body).value]
  {
  }

  /** A URL that `requests` rejects yields nothing and, being a ValueError,
      is logged as an invalid parameter rather than a failed request. */
  lemma RejectedUrlLoggedAsInvalidParameter(credentials: map<string, string>, params: map<string, Value>)
    requires PrepareRequest(credentials, params).Success?
    ensures Messages(Invoke(credentials, params, UrlRejected)) == []
    ensures Caught(Invoke(credentials, params, UrlRejected).outcome.error) == InvalidParameterLog
  {
  }

  /** Three items `A`, `B`, `C` are returned as ranks 1, 2, 3 in that order
      and `pagination.returned` is 3. */
  lemma ThreeItems(a: map<string, Value>, b: map<string, Value>, c: map<string, Value>)
    ensures var r := BuildEnvelope(Dict(map["data" := List([Dict(a), Dict(b), Dict(c)])]));
            && r.Success?
            && |r.value.articles| == 3
            && r.value.articles[0].rank == 1 && r.value.articles[0].id == Get(a, "id", Null)
            && r.value.articles[1].rank == 2 && r.value.articles[1].id == Get(b, "id", Null)
            && r.value.articles[2].rank == 3 && r.value.articles[2].id == Get(c, "id", Null)
            && r.value.pagination.returned == 3
            && r.value.code == Int(200)
            && r.value.pagination.total == Int(0)
  {
    var items := [Dict(a), Dict(b), Dict(c)];
    assert AllDicts(items);
  }
}

=== FILE: url.dfy ===
/** The request target built in `RookieRssTool._invoke`
    (tools/rookie_rss.py:14-26): the endpoint path derived from the platform
    and the query parameters with `None` entries filtered out. */
module Url {
  import opened Wrappers
  import opened Py

  /** The characters `platform.strip('/')` removes. */
  const Slash: set<char> := {'/'}

  /** The output format the tool requests; the caller's `result_type` is
      read and then overwritten with this value. */
  const PinnedResultType: string := "json"

  datatype QueryValue = QStr(s: string) | QInt(n: int)

  /** The request path: a single slash followed by the platform name with
      every leading and trailing slash removed. */
  function Endpoint(platform: string): (e: string)
    ensures |e| >= 1 && e[0] == '/'
    ensures |e| > 1 ==> e[1] != '/' && e[|e| - 1] != '/'
    ensures exists lo :: StrippedAt(platform, Slash, e[1..], lo)
  {
    var segment := Strip(platform, Slash);
    assert ("/" + segment)[1..] == segment;
    "/" + segment
  }

  /** The path segment is exactly what stripping gives: it is unchanged by
      a second strip, and any platform of the shape slashes + segment +
      slashes yields that segment. */
  lemma EndpointSegment(lead: string, segment: string, trail: string)
    requires forall k :: 0 <= k < |lead| ==> lead[k] == '/'
    requires forall k :: 0 <= k < |trail| ==> trail[k] == '/'
    requires |segment| > 0 ==> segment[0] != '/' && segment[|segment| - 1] != '/'
    ensures Endpoint(lead + segment + trail) == "/" + segment
    ensures Endpoint(segment) == "/" + segment
    ensures Strip(Endpoint(lead + segment + trail)[1..], Slash) == segment
  {
    StripUnique(lead, segment, trail, Slash);
    StripUnique([], segment, [], Slash);
    assert [] + segment + [] == segment;
    assert ("/" + segment)[1..] == segment;
  }

  /** The dictionary literal before filtering: `rss` is `"true"` only for
      the `rss` format, `limit` is always the requested count. */
  function RawQuery(resultType: string, resultNum: int): map<string, Option<QueryValue>> {
    map[
      "rss" := (if AsciiLower(resultType) == "rss" then Some(QStr("true")) else None),
      "limit" := Some(QInt(resultNum))
    ]
  }

  /** The query dictionary with every entry whose value is absent removed
      and the remaining values unwrapped. */
  function DropNone(m: map<string, Option<QueryValue>>): (r: map<string, QueryValue>)
    ensures forall k :: k in r <==> k in m && m[k].Some?
    ensures forall k :: k in r ==> m[k] == Some(r[k])
  {
    map k | k in m && m[k].Some? :: m[k].value
  }

  /** The filtered query parameters for a given format and count. */
  function QueryParams(resultType: string, resultNum: int): (q: map<string, QueryValue>)
    ensures "limit" in q && q["limit"] == QInt(resultNum)
    ensures "rss" in q <==> AsciiLower(resultType) == "rss"
    ensures "rss" in q ==> q["rss"] == QStr("true")
    ensures q.Keys <= {"rss", "limit"}
  {
    DropNone(RawQuery(resultType, resultNum))
  }

  /** With the format pinned to `json`, the query holds `limit` and nothing
      else: the `rss` branch can never fire. */
  lemma PinnedQueryIsLimitOnly(resultNum: int)
    ensures QueryParams(PinnedResultType, resultNum) == map["limit" := QInt(resultNum)]
  {
    assert AsciiLower(PinnedResultType) == "json";
    var q := QueryParams(PinnedResultType, resultNum);
    assert q.Keys == {"limit"};
  }

  /** Had the format not been pinned, a caller asking for `rss` in any
      letter case (`RSS`, `Rss`, `rSs`, ...) would have obtained `rss=true`. */
  lemma RssBranchWhenNotPinned(resultType: string, resultNum: int)
    requires |resultType| == 3
    requires resultType[0] in {'r', 'R'} && resultType[1] in {'s', 'S'} && resultType[2] in {'s', 'S'}
    ensures QueryParams(resultType, resultNum) == map["rss" := QStr("true"), "limit" := QInt(resultNum)]
  {
    AsciiLowerMatches(resultType, "rss");
    var q := QueryParams(resultType, resultNum);
    assert q.Keys == {"rss", "limit"};
  }
}

=== FILE: wrappers.dfy ===
/** Failure-compatible wrappers used throughout the model: `Option` for a value
    that may be absent and `Result` for a computation that may raise. */
module Wrappers {

  datatype Option<+T> = None | Some(value: T)

  /** `Result` can be used with `:-`: a `Failure` propagates unchanged. */
  datatype Result<+R, +E> = Success(value: R) | Failure(error: E) {

    predicate IsFailure() {
      Failure?
    }

    function PropagateFailure<U>(): Result<U, E>
      requires Failure?
    {
      Failure(error)
    }

    function Extract(): R
      requires Success?
    {
      value
    }
  }
}
